=== FILE: README.md ===
# Fan-control update engine

This is a model of the engine that recomputes the node graph of the fan-control application once per tick. The graph is a map from node ids to nodes. Each node has an ordered list of input ids, a kind (Control, Fan, Temp, CustomTemp, Graph, Flat, Linear, Target) and the value it cached at the last tick.

A tick (`Update::graph`) has two phases:

1. **Collect.** Each root node is validated in turn. `Node::validate` walks depth-first from the node through its inputs and pushes every node that passes its own check onto a trace, in pre-order; a node that fails its check is entered but not pushed. It answers `Ok(false)` as soon as a node fails its own check or an input's walk is false. It fails with `NodeNotFound` when an input id is dangling. The traces of the roots that validate to `true` are concatenated.
2. **Evaluate.** The concatenation is reversed into a leaf-first plan. Each id of the plan that is not yet in the `updated` set is evaluated by `Node::update` against the values cached so far. Its value is written back and the id is recorded. The first error ends the tick, and the values already written stay.

`Node::update` gathers the cached values of the node's inputs in order. A missing input is `NodeNotFound` and an input without a value is `ValueIsNone`. A Flat node then yields its constant. A Control node hands its first input value to the control update, which drives the hardware.

Modules:

- `AppGraph` (app_graph.dfy): the nodes, the graph, the acyclicity witness `Ranked` and the single-node write `WithValue`.
- `Errors` (errors.dfy): `UpdateError` and `Result`.
- `Validation` (validation.dfy): `Node::validate`.
  - `Validate`/`ValidateInputs` define the walk.
  - `ValidateInto` is the recursive method that appends to the caller's trace.
  - The lemmas relate the walk to two reference definitions: a valid chain (`ChainValid`) and reachability (`Reach`).
- `Evaluation` (evaluation.dfy): `Node::update`.
  - `InputValues`/`Evaluate` define it.
  - `Update` is the method with the gathering loop.
- `Update` (update.dfy): `Update::graph`.
  - `Collect`, `Run`/`Step` and `Tick` define the two phases and the whole tick.
  - `Graph` is the method. Its two loops are `CollectRoots` and `EvaluatePlan`.
  - The lemmas state what a tick guarantees.

The graph that the source mutates through `&mut Nodes` is passed into `Graph` and returned from it.

The check `is_valid` is a parameter `isValid: Node -> bool`. The control update, `control.update(input_values[0], hardware_bridge)` called on the configuration carried by a Control node, is a parameter `control: (ControlCfg, Value) -> Result<Value>`. A ghost `rank` map proves that the inputs relation is acyclic. The recursion of `Node::validate` relies on that acyclicity to terminate.

## Model

| member | source | states |
|---|---|---|
| AppGraph.WithValue | data/src/update.rs:65-68 | writing a node's value changes only that node's cached value; keys, names, inputs and kinds of all nodes stay the same |
| Validation.Validate | data/src/update.rs:112-131 | the walk from a node can fail only with `NodeNotFound` |
| Validation.ValidateInputs | data/src/update.rs:120-129 | the walk over a prefix of a node's inputs can fail only with `NodeNotFound` |
| Validation.ValidateInto | data/src/update.rs:112-131 | the recursive method returns the walk's outcome and appends exactly the walk's trace to the caller's trace; a node that fails its own check gives `Ok(false)` and leaves the trace as it was |
| Validation.InputsStep | data/src/update.rs:120-128 | loop-proof helper that unfolds one iteration of the input loop: after the earlier inputs all walked to `Ok(true)`, the next input is either missing (`NodeNotFound`, trace kept) or walked, its outcome becoming the outcome and its trace appended |
| Validation.InputsStop | data/src/update.rs:123-127 | once an input is missing or walks to something other than `Ok(true)`, the later inputs are not visited: neither outcome nor trace changes |
| Validation.ValidateTrueIff | data/src/update.rs:112-131 | a walk returns `Ok(true)` if and only if the node passes its check and every input exists and has a valid chain, recursively |
| Validation.InputsTrueIff | data/src/update.rs:120-131 | the walk over the first inputs returns `Ok(true)` if and only if each of those inputs exists and has a valid chain |
| Validation.ValidateCause | data/src/update.rs:112-131 | a walk answers `Ok(false)` only when some node reachable from the start fails its own check (114-116), and fails only when some reachable node has an input missing from the graph (127) |
| Validation.InputsCause | data/src/update.rs:120-129 | the same over the first inputs of a node: `Ok(false)` only from a node reachable through them that fails its check; an error only from a missing input of the node itself or of a node reachable through them |
| Validation.PreorderConcat | data/src/update.rs:48-49 | the concatenation of two pre-order-closed traces is pre-order-closed |
| Validation.PreorderCons | data/src/update.rs:118 | a valid node pushed in front of a closed trace holding all its inputs gives a closed trace |
| Validation.ValidTraceClosed | data/src/update.rs:118-129 | an `Ok(true)` walk's trace starts with the node, holds every input, and is pre-order-closed: each entry exists, passed its check, and has all its inputs later in the trace |
| Validation.InputsTraceClosed | data/src/update.rs:120-129 | an `Ok(true)` walk over the first inputs traces each of them and is pre-order-closed |
| Validation.ValidTraceReach | data/src/update.rs:118-129 | an `Ok(true)` walk traces exactly the nodes reachable from the node through inputs |
| Validation.InputsTraceReach | data/src/update.rs:120-129 | an `Ok(true)` walk over the first inputs traces exactly the nodes reachable from those inputs |
| Evaluation.InputValues | data/src/update.rs:86-96 | the gathering succeeds exactly when every input exists and holds a value, and then gives the inputs' values in input order; otherwise it fails with `NodeNotFound` or `ValueIsNone` |
| Evaluation.Evaluate | data/src/update.rs:81-110 | with all inputs ready, a Flat node yields its constant and a Control node yields the control update applied to its first input's value; otherwise the evaluation fails with `NodeNotFound` or `ValueIsNone` |
| Evaluation.Update | data/src/update.rs:81-110 | the method with the gathering loop computes exactly `Evaluate` |
| Evaluation.InputValuesFirstBad | data/src/update.rs:88-95 | the error reported is that of the first input, in order, that is missing (`NodeNotFound`) or has no value (`ValueIsNone`) |
| Evaluation.InputValuesLocal | data/src/update.rs:86-96 | the gathered values depend only on the presence and cached values of the node's inputs |
| Evaluation.EvaluateLocal | data/src/update.rs:81-110 | a node's evaluation depends only on its kind, its input ids and those inputs' cached values; it does not depend on its own value or on any other node |
| Update.Reverse | data/src/update.rs:55 | the reversal has the same length, and its i-th entry is the input's entry at the mirrored position |
| Update.ReverseMembers | data/src/update.rs:55 | reversal keeps exactly the same members |
| Update.Collect | data/src/update.rs:42-51 | a successful collect phase yields a pre-order-closed trace; its only error is `NodeNotFound` |
| Update.CollectRoots | data/src/update.rs:40-51 | the root loop computes exactly the collect phase, returning at the first missing root or failing walk |
| Update.CollectStep | data/src/update.rs:42-51 | loop-proof helper that unfolds one iteration of the root loop: a missing root is `NodeNotFound`; a failing walk passes its error on; a true walk appends its trace; a false walk appends nothing |
| Update.CollectStops | data/src/update.rs:43-48 | after an error in the collect phase, the later roots change nothing |
| Update.CollectCovers | data/src/update.rs:42-51 | a successful collect phase traces exactly the nodes on the chains of the roots whose chains are valid; a root that validates to false contributes nothing |
| Update.CollectOk | data/src/update.rs:42-51 | when every root exists and no node reachable from a root has a missing input, the collect phase succeeds whatever the nodes' own checks say: a failed check only makes its root contribute nothing |
| Update.CoveredEvaluable | data/src/update.rs:42-72 | the tick's requirement holds whenever every node on the chain of a root with a valid chain has an evaluation, whatever the kinds of the other nodes |
| Update.SensorWalk | data/src/update.rs:112-131 | in a graph where a Flat node feeds a Control root and every node passes its check, the walk from the root is `Ok(true)`; it traces the root, then the Flat node |
| Update.SensorOutsidePlan | data/src/update.rs:42-51 | the same graph also holds a Temp sensor that no root reaches; the collect phase traces only [root, flat], and the tick's requirement holds although the sensor has no evaluation |
| Update.PlanOfTrace | data/src/update.rs:55 | reversing a pre-order-closed trace yields a dependency order: every plan entry exists, passed its check, and has all its inputs earlier in the plan; when every trace entry has an evaluation, so does every plan entry |
| Update.Run | data/src/update.rs:57-72 | the evaluate phase keeps the graph's shape and writes each id at most once; it writes only plan ids, each then holding a value; unwritten nodes are untouched |
| Update.EvaluatePlan | data/src/update.rs:53-72 | the evaluate loop, with its `updated` set, computes exactly the evaluate phase, both the result and the final graph |
| Update.RunStep | data/src/update.rs:57-72 | loop-proof helper that unfolds one iteration of the evaluate loop: skipped after an error or when already updated; otherwise looked up (`NodeNotFound`), then evaluated, and then written or the error returned |
| Update.RunStops | data/src/update.rs:59-63 | after an error in the evaluate phase, the later plan entries change nothing |
| Update.StepSettled | data/src/update.rs:63-68 | writing a node whose inputs are all written keeps every written node's value equal to its evaluation, and settles the new node |
| Update.RunInOrder | data/src/update.rs:55-72 | over a dependency-ordered plan, nodes are written after all their inputs; each written value equals the node's evaluation against the final values; success means every plan id was written; a failure is one returned by a Control node's control update |
| Update.RunInOrderStep | data/src/update.rs:57-72 | the guarantees of `RunInOrder` survive one more plan entry |
| Update.WriteStep | data/src/update.rs:63-70 | writing a node after all its inputs keeps the writes in dependency order and every written node settled |
| Update.Tick | data/src/update.rs:34-75 | a tick keeps the graph's shape, and every node it writes has an evaluation |
| Update.Graph | data/src/update.rs:34-75 | the method computes exactly the tick: the same result and the same final graph |
| Update.TickFailure | data/src/update.rs:34-75 | a tick fails only in one of two ways: with `NodeNotFound` while building the plan, leaving the graph unchanged; or with an error returned by a Control node's control update |
| Update.TickNeverValueIsNone | data/src/update.rs:55-63 | unless the control update itself reports `ValueIsNone`, a tick never does: inputs are evaluated before their consumers |
| Update.TickCompletes | data/src/update.rs:34-75 | when no control update fails, a tick succeeds if and only if the collect phase does |
| Update.TickCompletesClosed | data/src/update.rs:34-75 | when no control update fails, a tick over roots that all exist and whose chains have no missing input completes |
| Update.TickWritesOnceInOrder | data/src/update.rs:53-72 | each node is written at most once per tick, after all its inputs; each written value is the node's evaluation against the final values; nodes not written are unchanged, so on a failure the earlier writes remain |
| Update.TickValues | data/src/update.rs:34-75 | after a successful tick, every node on the chain of a root whose chain is valid holds a value, and every other node is unchanged |

## Left out

- Update.Graph: requires `PlanEvaluable`. When the collect phase succeeds, every node it traces must be a Flat, or a Control with at least one input.
  - The source panics on any other node it evaluates: the other kinds are `todo!()`, and a Control with no inputs fails on `input_values[0]`.
  - Nodes outside the traced chains may be of any kind: sensors no valid root chain reaches, and nodes of a chain that validates to false.
  - The requirement is slightly stronger than the source needs. A traced node that an earlier error in the evaluate phase keeps from being evaluated must be implemented too.
  - `Update.Tick` and the `Update.Tick*` lemmas carry the same requirement.
- The control update drives the hardware through the hardware bridge. Its effect is not modelled: it is an arbitrary function parameter that returns a value or an error.
- `is_valid` is defined in the configuration layer, which is not part of this model. It is an arbitrary predicate parameter.
- `Update::clear_cache` does nothing and is not modelled.
- Update.Graph: requires the whole inputs relation to be acyclic, witnessed by a ghost rank. The source recurses forever only on a cycle that a root's walk reaches through nodes passing their own check. A cycle through a node that fails its check ends the walk with `Ok(false)`, and a cycle no root reaches is never walked, but the model excludes both.
- Update.Graph: does not model the `id` field stored inside each node. A node's id is its key in the map. The `updated` set therefore records the key, where the source records the node's own `id` field; the two agree whenever the stored id matches the key.
- Update.EvaluatePlan: the second lookup (`get_mut`) before the write is not a separate failure path. The graph is unchanged between the first lookup and the write, so it finds the same node.
- Root nodes are taken as a sequence in the order the source iterates them.
- There is no fallback that switches the controls of invalid roots to automatic mode. `Update::graph` has no such phase; the application calls that fallback from elsewhere, which is not part of this model.
- Values are unbounded integers rather than `i32`. The engine does no arithmetic on them, and a Flat value is passed on unchanged.
- The user interface, theme and command-line crates are not part of this model.

=== FILE: app_graph.dfy ===
/** The node graph the update engine works on: nodes keyed by their id, each
    with its ordered input ids, its kind and its cached value of the last tick. */
module AppGraph {

  datatype Option<+T> = None | Some(value: T)

  /** Node identifiers; only equality matters to the engine. A node's id is
      its key in `Nodes`. */
  type Id = nat

  /** A computed value (an `i32` in the source; the engine does no arithmetic on it). */
  type Value = int

  /** What a Control node knows about the hardware it drives. The engine only
      hands it to the external control update, together with the input value. */
  datatype ControlCfg = ControlCfg(hardwareId: Option<string>, input: Option<string>, active: bool)

  /** The node kinds. Only `Control` and `Flat` have an evaluation; the other
      kinds carry configuration the engine never looks at. */
  datatype NodeType =
    | Control(control: ControlCfg)
    | Fan
    | Temp
    | CustomTemp
    | Graph
    | Flat(flat: Value)
    | Linear
    | Target

  datatype Node = Node(name: string, inputs: seq<Id>, nodeType: NodeType, value: Option<Value>)

  type Nodes = map<Id, Node>

  /** A node whose evaluation exists: a `Flat`, or a `Control` that has the
      input its evaluation reads. */
  predicate Implemented(n: Node)
  {
    n.nodeType.Flat? || (n.nodeType.Control? && |n.inputs| > 0)
  }

  /** `rank` witnesses that the inputs relation among existing nodes is acyclic:
      every existing input of a node has a smaller rank than the node. */
  ghost predicate Ranked(nodes: Nodes, rank: map<Id, nat>)
  {
    && nodes.Keys <= rank.Keys
    && forall id, j | id in nodes && j in nodes[id].inputs && j in nodes :: rank[j] < rank[id]
  }

  /** `b` differs from `a` at most in the cached values. */
  ghost predicate SameShape(a: Nodes, b: Nodes)
  {
    && a.Keys == b.Keys
    && forall k | k in a :: b[k].name == a[k].name && b[k].inputs == a[k].inputs && b[k].nodeType == a[k].nodeType
  }

  /** The graph with node `id`'s cached value set to `v`. */
  function WithValue(nodes: Nodes, id: Id, v: Value): (r: Nodes)
    requires id in nodes
    ensures SameShape(nodes, r)
    ensures r[id].value == Some(v)
    ensures forall k | k in nodes && k != id :: r[k] == nodes[k]
  {
    nodes[id := nodes[id].(value := Some(v))]
  }

  /** No id occurs twice. */
  predicate NoDuplicates(s: seq<Id>)
  {
    forall a, b | 0 <= a < b < |s| :: s[a] != s[b]
  }
}

=== FILE: errors.dfy ===
/** The error taxonomy of the update engine and the result type its operations return. */
module Errors {

  /** A failure reported by the hardware layer; its content is opaque to the engine. */
  datatype HardwareError = HardwareError(message: string)

  datatype UpdateError =
    | NodeNotFound
    | ValueIsNone
    | NodeIsInvalid
    | Hardware(hardware: HardwareError)
    | NoInputData

  datatype Result<+T> = Ok(value: T) | Err(error: UpdateError)
}

=== FILE: evaluation.dfy ===
/** `Node::update`: gather the cached values of a node's inputs in order, then
    compute the node's value according to its kind. */
module Evaluation {
  import opened AppGraph
  import opened Errors

  /** The external control update: it drives the node's hardware with the
      input value and returns the value to cache, or fails. */
  type ControlUpdate = (ControlCfg, Value) -> Result<Value>

  /** Every id in `ins` names a node that holds a cached value. */
  ghost predicate InputsReady(nodes: Nodes, ins: seq<Id>)
  {
    forall j | j in ins :: j in nodes && nodes[j].value.Some?
  }

  /** The cached values of `ins`, in order, or the error for the first id that
      is missing or has no value. */
  function InputValues(nodes: Nodes, ins: seq<Id>): (r: Result<seq<Value>>)
    ensures r.Ok? <==> InputsReady(nodes, ins)
    ensures r.Ok? ==> |r.value| == |ins| && forall i | 0 <= i < |ins| :: r.value[i] == nodes[ins[i]].value.value
    ensures r.Err? ==> r.error == NodeNotFound || r.error == ValueIsNone
    decreases |ins|
  {
    if ins == [] then Ok([])
    else
      var j := ins[|ins| - 1];
      assert ins == ins[..|ins| - 1] + [j];
      match InputValues(nodes, ins[..|ins| - 1])
      case Err(e) => Err(e)
      case Ok(values) =>
        if j !in nodes then Err(NodeNotFound)
        else if nodes[j].value.None? then Err(ValueIsNone)
        else Ok(values + [nodes[j].value.value])
  }

  /** The value `Node::update` computes for `n` against the cached values in `nodes`. */
  function Evaluate(nodes: Nodes, n: Node, control: ControlUpdate): (r: Result<Value>)
    requires Implemented(n)
    ensures InputsReady(nodes, n.inputs) && n.nodeType.Flat? ==> r == Ok(n.nodeType.flat)
    ensures InputsReady(nodes, n.inputs) && n.nodeType.Control? ==>
      r == control(n.nodeType.control, nodes[n.inputs[0]].value.value)
    ensures !InputsReady(nodes, n.inputs) ==> r.Err? && (r.error == NodeNotFound || r.error == ValueIsNone)
  {
    match InputValues(nodes, n.inputs)
    case Err(e) => Err(e)
    case Ok(values) =>
      if n.nodeType.Control? then control(n.nodeType.control, values[0])
      else Ok(n.nodeType.flat)
  }

  /** `Node::update` itself: a loop collecting the input values, then the dispatch on the kind. */
  method Update(nodes: Nodes, n: Node, control: ControlUpdate) returns (r: Result<Value>)
    requires Implemented(n)
    ensures r == Evaluate(nodes, n, control)
  {
    var inputValues: seq<Value> := [];
    for i := 0 to |n.inputs|
      invariant InputValues(nodes, n.inputs[..i]) == Ok(inputValues)
    {
      var id := n.inputs[i];
      assert n.inputs[..i + 1][..i] == n.inputs[..i];
      if id !in nodes {
        InputValuesFirstBad(nodes, n.inputs, i);
        return Err(NodeNotFound);
      }
      match nodes[id].value
      case None =>
        InputValuesFirstBad(nodes, n.inputs, i);
        return Err(ValueIsNone);
      case Some(value) =>
        inputValues := inputValues + [value];
    }
    assert n.inputs[..|n.inputs|] == n.inputs;
    match n.nodeType
    case Control(control') =>
      r := control(control', inputValues[0]);
    case Flat(flat) =>
      r := Ok(flat);
  }

  /** The error reported is the one for the first input, in order, that is
      missing from the graph or holds no value. */
  lemma {:induction false} InputValuesFirstBad(nodes: Nodes, ins: seq<Id>, k: nat)
    requires k < |ins| && InputsReady(nodes, ins[..k])
    ensures ins[k] !in nodes ==> InputValues(nodes, ins) == Err(NodeNotFound)
    ensures ins[k] in nodes && nodes[ins[k]].value.None? ==> InputValues(nodes, ins) == Err(ValueIsNone)
    decreases |ins|
  {
    var pre := ins[..|ins| - 1];
    if k < |ins| - 1 {
      assert pre[..k] == ins[..k];
      InputValuesFirstBad(nodes, pre, k);
    } else {
      assert pre == ins[..k];
    }
  }

  /** The gathered values depend only on the inputs' presence and cached values. */
  lemma {:induction false} InputValuesLocal(m1: Nodes, m2: Nodes, ins: seq<Id>)
    requires forall j | j in ins :: (j in m1 <==> j in m2) && (j in m1 ==> m1[j].value == m2[j].value)
    ensures InputValues(m1, ins) == InputValues(m2, ins)
    decreases |ins|
  {
    if ins != [] {
      InputValuesLocal(m1, m2, ins[..|ins| - 1]);
    }
  }

  /** A node's evaluation depends only on its kind, its input ids and the
      presence and cached values of those inputs; in particular not on its own
      cached value nor on any other node. */
  lemma EvaluateLocal(m1: Nodes, m2: Nodes, n1: Node, n2: Node, control: ControlUpdate)
    requires Implemented(n1) && n1.inputs == n2.inputs && n1.nodeType == n2.nodeType
    requires forall j | j in n1.inputs :: (j in m1 <==> j in m2) && (j in m1 ==> m1[j].value == m2[j].value)
    ensures Evaluate(m1, n1, control) == Evaluate(m2, n2, control)
  {
    InputValuesLocal(m1, m2, n1.inputs);
  }
}

=== FILE: update.dfy ===
/** `Update::graph`: one tick of the engine. Every root is validated; the traces
    of the roots that validate to true are concatenated and reversed into a
    leaf-first plan; each id of the plan is evaluated at most once and its
    value cached in the graph. */
module Update {
  import opened AppGraph
  import opened Errors
  import opened Validation
  import opened Evaluation

  // ---------------------------------------------------------------------------
  // Specification of a tick.

  function Reverse(s: seq<Id>): (r: seq<Id>)
    ensures |r| == |s|
    ensures forall i | 0 <= i < |s| :: r[i] == s[|s| - 1 - i]
  {
    if s == [] then [] else Reverse(s[1..]) + [s[0]]
  }

  lemma ReverseMembers(s: seq<Id>)
    ensures forall k :: k in Reverse(s) <==> k in s
  {
    var r := Reverse(s);
    forall k | k in s
      ensures k in r
    {
      var i :| 0 <= i < |s| && s[i] == k;
      assert r[|s| - 1 - i] == k;
    }
  }

  /** The collect phase over `roots`, in order: a missing root or a walk that
      fails stops it with that error; a root whose walk is `Ok(true)` adds its
      trace; a root whose walk is `Ok(false)` adds nothing. */
  function Collect(nodes: Nodes, isValid: IsValid, rank: map<Id, nat>, roots: seq<Id>): (r: Result<seq<Id>>)
    requires Ranked(nodes, rank)
    ensures r.Ok? ==> PreorderClosed(nodes, isValid, r.value)
    ensures r.Err? ==> r.error == NodeNotFound
    decreases |roots|
  {
    if roots == [] then Ok([])
    else
      match Collect(nodes, isValid, rank, roots[..|roots| - 1])
      case Err(e) => Err(e)
      case Ok(t) =>
        var root := roots[|roots| - 1];
        if root !in nodes then Err(NodeNotFound)
        else
          var w := Validate(nodes, isValid, rank, root);
          if w.result.Err? then Err(w.result.error)
          else if w.result.value then
            ValidTraceClosed(nodes, isValid, rank, root);
            PreorderConcat(nodes, isValid, t, w.trace);
            Ok(t + w.trace)
          else Ok(t)
  }

  /** Every node the collect phase traces has an evaluation, so the evaluate
      phase never reaches an unimplemented kind. Nodes outside the traced
      chains, such as the sensors of a chain that validates to false, may be
      of any kind. */
  ghost predicate PlanEvaluable(nodes: Nodes, isValid: IsValid, rank: map<Id, nat>, roots: seq<Id>)
    requires Ranked(nodes, rank)
  {
    var c := Collect(nodes, isValid, rank, roots);
    c.Ok? ==> forall k | k in c.value && k in nodes :: Implemented(nodes[k])
  }

  /** Every plan entry exists, and every input of an entry occurs earlier in the plan. */
  ghost predicate DependencyOrdered(nodes: Nodes, plan: seq<Id>)
  {
    forall q | 0 <= q < |plan| ::
      && plan[q] in nodes
      && forall j | j in nodes[plan[q]].inputs :: j in plan[..q]
  }

  ghost predicate PlanImplemented(nodes: Nodes, plan: seq<Id>)
  {
    forall k | k in plan && k in nodes :: Implemented(nodes[k])
  }

  /** The state of the evaluate phase: the outcome so far, the graph, and the
      ids evaluated and written so far, in order. */
  datatype Progress = Progress(result: Result<()>, nodes: Nodes, written: seq<Id>)

  /** The evaluate phase over `plan`: an id already written is skipped; otherwise
      the node is evaluated against the current cached values and its value
      written; the first error stops the phase, keeping what was written. */
  function Run(nodes: Nodes, plan: seq<Id>, control: ControlUpdate): (p: Progress)
    requires PlanImplemented(nodes, plan)
    ensures SameShape(nodes, p.nodes)
    ensures NoDuplicates(p.written)
    ensures forall k | k in p.written :: k in plan && k in nodes && p.nodes[k].value.Some?
    ensures forall k | k in nodes && k !in p.written :: p.nodes[k] == nodes[k]
    decreases |plan|
  {
    if plan == [] then Progress(Ok(()), nodes, [])
    else
      var p := Run(nodes, plan[..|plan| - 1], control);
      Step(p, plan[|plan| - 1], control)
  }

  /** One entry `id` of the evaluate phase, from progress `p`. */
  function Step(p: Progress, id: Id, control: ControlUpdate): Progress
    requires id in p.nodes ==> Implemented(p.nodes[id])
  {
    if p.result.Err? || id in p.written then p
    else if id !in p.nodes then p.(result := Err(NodeNotFound))
    else
      match Evaluate(p.nodes, p.nodes[id], control)
      case Err(e) => p.(result := Err(e))
      case Ok(v) => Progress(Ok(()), WithValue(p.nodes, id, v), p.written + [id])
  }

  /** A whole tick: the collect phase, then the evaluate phase over the reversed trace. */
  function Tick(nodes: Nodes, isValid: IsValid, rank: map<Id, nat>, roots: seq<Id>, control: ControlUpdate): (p: Progress)
    requires Ranked(nodes, rank) && PlanEvaluable(nodes, isValid, rank, roots)
    ensures SameShape(nodes, p.nodes)
    ensures forall k | k in p.written :: k in nodes && Implemented(nodes[k])
  {
    match Collect(nodes, isValid, rank, roots)
    case Err(e) => Progress(Err(e), nodes, [])
    case Ok(t) =>
      PlanOfTrace(nodes, isValid, t);
      Run(nodes, Reverse(t), control)
  }

  // ---------------------------------------------------------------------------
  // The method.

  /** `Update::graph` itself. The graph is passed in and the updated graph
      returned, which is what the source's `&mut Nodes` amounts to. */
  method Graph(nodes: Nodes, isValid: IsValid, ghost rank: map<Id, nat>, roots: seq<Id>, control: ControlUpdate)
    returns (result: Result<()>, nodes': Nodes)
    requires Ranked(nodes, rank) && PlanEvaluable(nodes, isValid, rank, roots)
    ensures result == Tick(nodes, isValid, rank, roots, control).result
    ensures nodes' == Tick(nodes, isValid, rank, roots, control).nodes
  {
    var collected := CollectRoots(nodes, isValid, rank, roots);
    if collected.Err? {
      return Err(collected.error), nodes;
    }
    PlanOfTrace(nodes, isValid, collected.value);
    var toUpdate := Reverse(collected.value);
    result, nodes' := EvaluatePlan(nodes, toUpdate, control);
  }

  /** The first phase of `Update::graph`: validate every root in order and
      append the trace of each root that validates to true. */
  method CollectRoots(nodes: Nodes, isValid: IsValid, ghost rank: map<Id, nat>, roots: seq<Id>)
    returns (r: Result<seq<Id>>)
    requires Ranked(nodes, rank)
    ensures r == Collect(nodes, isValid, rank, roots)
  {
    var toUpdate: seq<Id> := [];
    for i := 0 to |roots|
      invariant Collect(nodes, isValid, rank, roots[..i]) == Ok(toUpdate)
    {
      var nodeId := roots[i];
      CollectStep(nodes, isValid, rank, roots, i);
      if nodeId !in nodes {
        CollectStops(nodes, isValid, rank, roots, i + 1);
        return Err(NodeNotFound);
      }
      var valid, ids := ValidateInto(nodes, isValid, rank, nodeId, []);
      assert ids == Validate(nodes, isValid, rank, nodeId).trace;
      if valid.Err? {
        CollectStops(nodes, isValid, rank, roots, i + 1);
        return Err(valid.error);
      }
      if valid.value {
        toUpdate := toUpdate + ids;
      }
    }
    assert roots[..|roots|] == roots;
    return Ok(toUpdate);
  }

  /** The second phase of `Update::graph`: evaluate each id of the plan that is
      not yet in the `updated` set and write its value, stopping at the first error. */
  method EvaluatePlan(nodes: Nodes, toUpdate: seq<Id>, control: ControlUpdate)
    returns (result: Result<()>, nodes': Nodes)
    requires PlanImplemented(nodes, toUpdate)
    ensures result == Run(nodes, toUpdate, control).result
    ensures nodes' == Run(nodes, toUpdate, control).nodes
  {
    nodes' := nodes;
    var updated: set<Id> := {};
    ghost var written: seq<Id> := [];
    for j := 0 to |toUpdate|
      invariant Run(nodes, toUpdate[..j], control) == Progress(Ok(()), nodes', written)
      invariant forall k :: k in updated <==> k in written
    {
      var nodeId := toUpdate[j];
      RunStep(nodes, toUpdate, control, j);
      if nodeId !in updated {
        if nodeId !in nodes' {
          RunStops(nodes, toUpdate, control, j + 1);
          return Err(NodeNotFound), nodes';
        }
        var value := Evaluation.Update(nodes', nodes'[nodeId], control);
        if value.Err? {
          RunStops(nodes, toUpdate, control, j + 1);
          return Err(value.error), nodes';
        }
        // the second lookup, for writing, finds the node the first one found
        nodes' := WithValue(nodes', nodeId, value.value);
        updated := updated + {nodeId};
        written := written + [nodeId];
      }
    }
    assert toUpdate[..|toUpdate|] == toUpdate;
    result := Ok(());
  }

  /** One more root handled by the collect phase. */
  lemma CollectStep(nodes: Nodes, isValid: IsValid, rank: map<Id, nat>, roots: seq<Id>, i: nat)
    requires Ranked(nodes, rank) && i < |roots|
    requires Collect(nodes, isValid, rank, roots[..i]).Ok?
    ensures var t := Collect(nodes, isValid, rank, roots[..i]).value;
      var root := roots[i];
      Collect(nodes, isValid, rank, roots[..i + 1]) ==
        if root !in nodes then Err(NodeNotFound)
        else
          var w := Validate(nodes, isValid, rank, root);
          if w.result.Err? then Err(w.result.error)
          else if w.result.value then Ok(t + w.trace)
          else Ok(t)
  {
    assert roots[..i + 1][..i] == roots[..i];
  }

  /** One more plan entry handled by the evaluate phase. */
  lemma RunStep(nodes: Nodes, plan: seq<Id>, control: ControlUpdate, j: nat)
    requires PlanImplemented(nodes, plan) && j < |plan|
    ensures PlanImplemented(nodes, plan[..j]) && PlanImplemented(nodes, plan[..j + 1])
    ensures Run(nodes, plan[..j + 1], control) == Step(Run(nodes, plan[..j], control), plan[j], control)
  {
    assert plan[..j + 1][..j] == plan[..j];
  }

  lemma {:induction false} CollectStops(nodes: Nodes, isValid: IsValid, rank: map<Id, nat>, roots: seq<Id>, k: nat)
    requires Ranked(nodes, rank) && k <= |roots|
    requires Collect(nodes, isValid, rank, roots[..k]).Err?
    ensures Collect(nodes, isValid, rank, roots) == Collect(nodes, isValid, rank, roots[..k])
    decreases |roots|
  {
    if k < |roots| {
      var pre := roots[..|roots| - 1];
      assert pre[..k] == roots[..k];
      CollectStops(nodes, isValid, rank, pre, k);
    } else {
      assert roots[..k] == roots;
    }
  }

  lemma {:induction false} RunStops(nodes: Nodes, plan: seq<Id>, control: ControlUpdate, k: nat)
    requires PlanImplemented(nodes, plan) && k <= |plan|
    requires Run(nodes, plan[..k], control).result.Err?
    ensures Run(nodes, plan, control) == Run(nodes, plan[..k], control)
    decreases |plan|
  {
    if k < |plan| {
      var pre := plan[..|plan| - 1];
      assert pre[..k] == plan[..k];
      RunStops(nodes, pre, control, k);
    } else {
      assert plan[..k] == plan;
    }
  }

  // ---------------------------------------------------------------------------
  // Properties of the plan.

  /** Reversing a pre-order trace gives a dependency order: each input of a plan
      entry occurs before the entry, and every entry passed its own check. */
  lemma PlanOfTrace(nodes: Nodes, isValid: IsValid, t: seq<Id>)
    requires PreorderClosed(nodes, isValid, t)
    ensures DependencyOrdered(nodes, Reverse(t))
    ensures forall k | k in Reverse(t) :: k in nodes && isValid(nodes[k])
    ensures (forall k | k in t && k in nodes :: Implemented(nodes[k])) ==> PlanImplemented(nodes, Reverse(t))
  {
    var r := Reverse(t);
    var n := |t|;
    forall q | 0 <= q < n
      ensures r[q] in nodes && isValid(nodes[r[q]])
      ensures forall j | j in nodes[r[q]].inputs :: j in r[..q]
    {
      var p := n - 1 - q;
      assert r[q] == t[p];
      forall j | j in nodes[t[p]].inputs
        ensures j in r[..q]
      {
        assert j in t[p + 1..];
        var i :| 0 <= i < |t[p + 1..]| && t[p + 1..][i] == j;
        assert r[q - 1 - i] == j;
        assert r[..q][q - 1 - i] == j;
      }
    }
    forall k | k in r
      ensures k in nodes && isValid(nodes[k])
    {
      var q :| 0 <= q < n && r[q] == k;
    }
    ReverseMembers(t);
  }

  /** The nodes on the chains of the roots whose chains are valid. */
  ghost function Covered(nodes: Nodes, isValid: IsValid, rank: map<Id, nat>, roots: seq<Id>): set<Id>
    requires Ranked(nodes, rank)
    decreases |roots|
  {
    if roots == [] then {}
    else
      var root := roots[|roots| - 1];
      Covered(nodes, isValid, rank, roots[..|roots| - 1])
        + if root in nodes && ChainValid(nodes, isValid, rank, root) then Reach(nodes, rank, root) else {}
  }

  /** A successful collect phase traces exactly the nodes on the chains of the
      roots whose chains are valid: a root that validates to false contributes nothing. */
  lemma {:induction false} CollectCovers(nodes: Nodes, isValid: IsValid, rank: map<Id, nat>, roots: seq<Id>)
    requires Ranked(nodes, rank)
    ensures var c := Collect(nodes, isValid, rank, roots);
      c.Ok? ==> forall k :: k in c.value <==> k in Covered(nodes, isValid, rank, roots)
    decreases |roots|
  {
    if roots != [] {
      CollectCovers(nodes, isValid, rank, roots[..|roots| - 1]);
      var root := roots[|roots| - 1];
      if root in nodes {
        ValidateTrueIff(nodes, isValid, rank, root);
        ValidTraceReach(nodes, isValid, rank, root);
      }
    }
  }

  /** Every root exists, and no node reachable from a root has a dangling input. */
  ghost predicate RootsClosed(nodes: Nodes, rank: map<Id, nat>, roots: seq<Id>)
    requires Ranked(nodes, rank)
  {
    forall r | r in roots :: r in nodes && forall k | k in Reach(nodes, rank, r) :: !Dangling(nodes, k)
  }

  /** Over roots that all exist and whose chains have no dangling input, the
      collect phase succeeds whatever the nodes' own checks say: a node that
      fails its check only makes its root contribute nothing. */
  lemma {:induction false} CollectOk(nodes: Nodes, isValid: IsValid, rank: map<Id, nat>, roots: seq<Id>)
    requires Ranked(nodes, rank) && RootsClosed(nodes, rank, roots)
    ensures Collect(nodes, isValid, rank, roots).Ok?
    decreases |roots|
  {
    if roots != [] {
      var pre := roots[..|roots| - 1];
      var root := roots[|roots| - 1];
      assert forall r | r in pre :: r in roots;
      CollectOk(nodes, isValid, rank, pre);
      ValidateCause(nodes, isValid, rank, root);
    }
  }

  /** A graph whose every node on the chain of a root with a valid chain has an
      evaluation can be ticked, whatever the kinds of the other nodes. */
  lemma CoveredEvaluable(nodes: Nodes, isValid: IsValid, rank: map<Id, nat>, roots: seq<Id>)
    requires Ranked(nodes, rank)
    requires forall k | k in nodes && k in Covered(nodes, isValid, rank, roots) :: Implemented(nodes[k])
    ensures PlanEvaluable(nodes, isValid, rank, roots)
  {
    CollectCovers(nodes, isValid, rank, roots);
  }

  /** A Flat node (1) feeding a Control root (2), beside a Temp sensor (3) that no root reaches. */
  function SensorNodes(): Nodes
  {
    map[1 := Node("flat", [], Flat(5), None),
        2 := Node("control", [1], Control(ControlCfg(None, None, true)), None),
        3 := Node("temp", [], Temp, None)]
  }

  function SensorRank(): map<Id, nat>
  {
    map[1 := 0, 2 := 1, 3 := 0]
  }

  /** When every node passes its own check, the walk from the root traces the root, then the Flat node. */
  lemma SensorWalk(isValid: IsValid)
    requires forall n :: isValid(n)
    ensures Ranked(SensorNodes(), SensorRank())
    ensures Validate(SensorNodes(), isValid, SensorRank(), 2) == Walk(Ok(true), [2, 1])
  {
    var nodes, rank := SensorNodes(), SensorRank();
    assert Validate(nodes, isValid, rank, 1).trace == [1];
    assert ValidateInputs(nodes, isValid, rank, 2, 1).trace == [1];
  }

  /** The plan holds only the root's chain, so the graph can be ticked although
      the sensor has no evaluation. */
  lemma SensorOutsidePlan(isValid: IsValid)
    requires forall n :: isValid(n)
    ensures Ranked(SensorNodes(), SensorRank())
    ensures Collect(SensorNodes(), isValid, SensorRank(), [2]) == Ok([2, 1])
    ensures PlanEvaluable(SensorNodes(), isValid, SensorRank(), [2])
  {
    SensorWalk(isValid);
    var roots: seq<Id> := [2];
    assert roots[..0] == [] && roots[0] == 2;
    assert Collect(SensorNodes(), isValid, SensorRank(), roots[..0]) == Ok([]);
    assert [] + [2, 1] == [2, 1];
  }

  // ---------------------------------------------------------------------------
  // Properties of the evaluate phase.

  /** The control update of some Control node of the plan, on some input value, fails with `e`. */
  ghost predicate ControlFailed(nodes: Nodes, plan: seq<Id>, control: ControlUpdate, e: UpdateError)
  {
    exists k, v :: k in plan && k in nodes && nodes[k].nodeType.Control? && control(nodes[k].nodeType.control, v) == Err(e)
  }

  /** Node `k` holds a value, and it is the value `k` evaluates to against `m`. */
  ghost predicate Settled(m: Nodes, control: ControlUpdate, k: Id)
  {
    && k in m
    && Implemented(m[k])
    && m[k].value.Some?
    && Evaluate(m, m[k], control) == Ok(m[k].value.value)
  }

  /** Writing node `id`, whose inputs are all written, keeps every written node
      settled and settles `id`, when `id` was not yet written and the inputs of
      every written node are written. */
  lemma StepSettled(m: Nodes, written: seq<Id>, id: Id, v: Value, control: ControlUpdate)
    requires id in m && Implemented(m[id]) && id !in written
    requires Evaluate(m, m[id], control) == Ok(v)
    requires forall j | j in m[id].inputs :: j in written
    requires forall k | k in written :: Settled(m, control, k) && forall j | j in m[k].inputs :: j in written
    ensures forall k | k in written + [id] :: Settled(WithValue(m, id, v), control, k)
  {
    var m' := WithValue(m, id, v);
    forall k | k in written + [id]
      ensures Settled(m', control, k)
    {
      if k == id {
        EvaluateLocal(m, m', m[id], m'[id], control);
      } else {
        assert k in written;
        assert m'[k] == m[k];
        EvaluateLocal(m, m', m[k], m'[k], control);
      }
    }
  }

  /** Every written id exists, and every input of a written node was written before it. */
  ghost predicate WrittenInOrder(nodes: Nodes, w: seq<Id>)
  {
    forall q | 0 <= q < |w| :: w[q] in nodes && forall j | j in nodes[w[q]].inputs :: j in w[..q]
  }

  /** What the evaluate phase guarantees over a dependency-ordered plan. */
  ghost predicate RunGuarantees(nodes: Nodes, plan: seq<Id>, control: ControlUpdate, p: Progress)
  {
    && WrittenInOrder(nodes, p.written)
    && (forall k | k in p.written :: Settled(p.nodes, control, k))
    && (p.result.Ok? ==> forall k | k in plan :: k in p.written)
    && (p.result.Err? ==> ControlFailed(nodes, plan, control, p.result.error))
  }

  /** Over a dependency-ordered plan, the evaluate phase writes nodes in
      dependency order; every written value is what the node evaluates to
      against the final cached values; success means every plan entry was
      written; and a failure can only be one returned by a control update. */
  lemma {:induction false} RunInOrder(nodes: Nodes, plan: seq<Id>, control: ControlUpdate)
    requires PlanImplemented(nodes, plan) && DependencyOrdered(nodes, plan)
    ensures RunGuarantees(nodes, plan, control, Run(nodes, plan, control))
    decreases |plan|
  {
    if plan != [] {
      var pre := plan[..|plan| - 1];
      assert DependencyOrdered(nodes, pre) by {
        forall q | 0 <= q < |pre|
          ensures pre[q] in nodes && forall j | j in nodes[pre[q]].inputs :: j in pre[..q]
        {
          assert pre[..q] == plan[..q];
        }
      }
      RunInOrder(nodes, pre, control);
      RunInOrderStep(nodes, plan, control);
    }
  }

  lemma RunInOrderStep(nodes: Nodes, plan: seq<Id>, control: ControlUpdate)
    requires plan != [] && PlanImplemented(nodes, plan) && DependencyOrdered(nodes, plan)
    requires RunGuarantees(nodes, plan[..|plan| - 1], control, Run(nodes, plan[..|plan| - 1], control))
    ensures RunGuarantees(nodes, plan, control, Run(nodes, plan, control))
  {
    var n := |plan| - 1;
    var pre := plan[..n];
    LastSplit(plan);
    RunStep(nodes, plan, control, n);
    var p := Run(nodes, pre, control);
    var id := plan[n];
    if p.result.Err? {
      var k, v :| k in pre && k in nodes && nodes[k].nodeType.Control? && control(nodes[k].nodeType.control, v) == Err(p.result.error);
      assert k in plan;
      return;
    }
    assert forall j | j in nodes[id].inputs :: j in p.written by {
      forall j | j in nodes[id].inputs
        ensures j in p.written
      {
        assert j in plan[..n];
      }
    }
    if id in p.written {
      return;
    }
    var m := p.nodes;
    assert InputsReady(m, m[id].inputs);
    match Evaluate(m, m[id], control)
    case Err(e) =>
      assert control(nodes[id].nodeType.control, m[m[id].inputs[0]].value.value) == Err(e);
    case Ok(v) =>
      WriteStep(nodes, control, p, id, v);
  }

  /** The members of a non-empty sequence are those of its prefix and its last element. */
  lemma LastSplit(s: seq<Id>)
    requires s != []
    ensures forall k :: k in s <==> k in s[..|s| - 1] || k == s[|s| - 1]
  {
    assert s == s[..|s| - 1] + [s[|s| - 1]];
  }

  /** Writing node `id`, whose inputs are all written, after the written nodes
      keeps the writes in dependency order and every written node settled. */
  lemma WriteStep(nodes: Nodes, control: ControlUpdate, p: Progress, id: Id, v: Value)
    requires SameShape(nodes, p.nodes)
    requires WrittenInOrder(nodes, p.written) && forall k | k in p.written :: Settled(p.nodes, control, k)
    requires id in nodes && id !in p.written && Implemented(nodes[id])
    requires forall j | j in nodes[id].inputs :: j in p.written
    requires Evaluate(p.nodes, p.nodes[id], control) == Ok(v)
    ensures WrittenInOrder(nodes, p.written + [id])
    ensures forall k | k in p.written + [id] :: Settled(WithValue(p.nodes, id, v), control, k)
  {
    var w := p.written;
    var m := p.nodes;
    forall k | k in w
      ensures Settled(m, control, k) && forall j | j in m[k].inputs :: j in w
    {
      var q :| 0 <= q < |w| && w[q] == k;
      forall j | j in m[k].inputs
        ensures j in w
      {
        assert j in w[..q];
      }
    }
    StepSettled(m, w, id, v, control);
    var w' := w + [id];
    forall q | 0 <= q < |w'|
      ensures w'[q] in nodes && forall j | j in nodes[w'[q]].inputs :: j in w'[..q]
    {
      if q < |w| {
        assert w'[..q] == w[..q];
      } else {
        assert w'[..q] == w;
      }
    }
  }

  // ---------------------------------------------------------------------------
  // Properties of a tick.

  /** A tick fails only with `NodeNotFound` while building the plan, leaving the
      graph as it was, or with an error returned by the control update of a
      Control node of the plan: gathering the inputs of a plan node never fails. */
  lemma TickFailure(nodes: Nodes, isValid: IsValid, rank: map<Id, nat>, roots: seq<Id>, control: ControlUpdate)
    requires Ranked(nodes, rank) && PlanEvaluable(nodes, isValid, rank, roots)
    ensures var p := Tick(nodes, isValid, rank, roots, control);
      var c := Collect(nodes, isValid, rank, roots);
      p.result.Err? ==>
        || (c.Err? && p.result == Err(NodeNotFound) && p.nodes == nodes)
        || (c.Ok? && ControlFailed(nodes, Reverse(c.value), control, p.result.error))
  {
    var c := Collect(nodes, isValid, rank, roots);
    if c.Ok? {
      PlanOfTrace(nodes, isValid, c.value);
      RunInOrder(nodes, Reverse(c.value), control);
    }
  }

  /** Unless a control update itself reports `ValueIsNone`, a tick never does. */
  lemma TickNeverValueIsNone(nodes: Nodes, isValid: IsValid, rank: map<Id, nat>, roots: seq<Id>, control: ControlUpdate)
    requires Ranked(nodes, rank) && PlanEvaluable(nodes, isValid, rank, roots)
    requires forall cfg, v :: control(cfg, v) != Err(ValueIsNone)
    ensures Tick(nodes, isValid, rank, roots, control).result != Err(ValueIsNone)
  {
    TickFailure(nodes, isValid, rank, roots, control);
  }

  /** When no control update fails, a tick completes exactly when the collect
      phase does: when every root exists and no walk meets a missing input. */
  lemma TickCompletes(nodes: Nodes, isValid: IsValid, rank: map<Id, nat>, roots: seq<Id>, control: ControlUpdate)
    requires Ranked(nodes, rank) && PlanEvaluable(nodes, isValid, rank, roots)
    requires forall cfg, v :: control(cfg, v).Ok?
    ensures Tick(nodes, isValid, rank, roots, control).result.Ok? <==> Collect(nodes, isValid, rank, roots).Ok?
  {
    TickFailure(nodes, isValid, rank, roots, control);
  }

  /** When no control update fails, a tick over roots that all exist and whose
      chains have no dangling input completes, whatever the nodes' own checks say. */
  lemma TickCompletesClosed(nodes: Nodes, isValid: IsValid, rank: map<Id, nat>, roots: seq<Id>, control: ControlUpdate)
    requires Ranked(nodes, rank) && PlanEvaluable(nodes, isValid, rank, roots)
    requires forall cfg, v :: control(cfg, v).Ok?
    requires RootsClosed(nodes, rank, roots)
    ensures Tick(nodes, isValid, rank, roots, control).result.Ok?
  {
    CollectOk(nodes, isValid, rank, roots);
    TickCompletes(nodes, isValid, rank, roots, control);
  }

  /** Each node is evaluated and written at most once per tick, every node after
      all of its inputs, and each written value is what the node evaluates to
      against the values cached at the end of the tick. Only written nodes
      change, so on a failure the values written before it remain. */
  lemma TickWritesOnceInOrder(nodes: Nodes, isValid: IsValid, rank: map<Id, nat>, roots: seq<Id>, control: ControlUpdate)
    requires Ranked(nodes, rank) && PlanEvaluable(nodes, isValid, rank, roots)
    ensures var p := Tick(nodes, isValid, rank, roots, control);
      && NoDuplicates(p.written)
      && WrittenInOrder(nodes, p.written)
      && (forall k | k in p.written :: Settled(p.nodes, control, k))
      && (forall k | k in nodes && k !in p.written :: p.nodes[k] == nodes[k])
  {
    var c := Collect(nodes, isValid, rank, roots);
    if c.Ok? {
      PlanOfTrace(nodes, isValid, c.value);
      RunInOrder(nodes, Reverse(c.value), control);
    }
  }

  /** After a successful tick, every node on the chain of a root whose chain is
      valid holds a value, and every other node is unchanged. */
  lemma TickValues(nodes: Nodes, isValid: IsValid, rank: map<Id, nat>, roots: seq<Id>, control: ControlUpdate)
    requires Ranked(nodes, rank) && PlanEvaluable(nodes, isValid, rank, roots)
    ensures var p := Tick(nodes, isValid, rank, roots, control);
      p.result.Ok? ==>
        && (forall k | k in nodes && k in Covered(nodes, isValid, rank, roots) :: p.nodes[k].value.Some?)
        && (forall k | k in nodes && k !in Covered(nodes, isValid, rank, roots) :: p.nodes[k] == nodes[k])
  {
    var c := Collect(nodes, isValid, rank, roots);
    if c.Ok? {
      var plan := Reverse(c.value);
      PlanOfTrace(nodes, isValid, c.value);
      RunInOrder(nodes, plan, control);
      CollectCovers(nodes, isValid, rank, roots);
      ReverseMembers(c.value);
    }
  }
}

=== FILE: validation.dfy ===
/** `Node::validate`: the depth-first walk from a node through its inputs that
    decides whether the node's whole upstream chain may be evaluated, and
    appends every node that passes its own check to a trace in pre-order; a
    node that fails its check is entered but not appended. */
module Validation {
  import opened AppGraph
  import opened Errors

  /** A node's own structural check (`is_valid`), supplied by the configuration layer. */
  type IsValid = Node -> bool

  /** The outcome of a walk, and the ids the walk appended to the trace, in
      order, up to the point where it returned. */
  datatype Walk = Walk(result: Result<bool>, trace: seq<Id>)

  /** The walk from `id`: nothing is traced for a node that fails its own check;
      otherwise the node is traced, then each input is walked in order. */
  function Validate(nodes: Nodes, isValid: IsValid, rank: map<Id, nat>, id: Id): (w: Walk)
    requires Ranked(nodes, rank) && id in nodes
    ensures w.result.Err? ==> w.result.error == NodeNotFound
    decreases rank[id], 1
  {
    var n := nodes[id];
    if !isValid(n) then Walk(Ok(false), [])
    else
      var w := ValidateInputs(nodes, isValid, rank, id, |n.inputs|);
      Walk(w.result, [id] + w.trace)
  }

  /** The walk over the first `count` inputs of `parent`, stopping at the first
      input that is missing (an error) or whose own walk is not `Ok(true)`. */
  function ValidateInputs(nodes: Nodes, isValid: IsValid, rank: map<Id, nat>, parent: Id, count: nat): (w: Walk)
    requires Ranked(nodes, rank) && parent in nodes && count <= |nodes[parent].inputs|
    ensures w.result.Err? ==> w.result.error == NodeNotFound
    decreases rank[parent], 0, count
  {
    if count == 0 then Walk(Ok(true), [])
    else
      var w := ValidateInputs(nodes, isValid, rank, parent, count - 1);
      var j := nodes[parent].inputs[count - 1];
      if w.result != Ok(true) then w
      else if j !in nodes then Walk(Err(NodeNotFound), w.trace)
      else
        assert j in nodes[parent].inputs;
        var c := Validate(nodes, isValid, rank, j);
        Walk(c.result, w.trace + c.trace)
  }

  /** `Node::validate` itself: a recursive method that appends to the trace it is given. */
  method ValidateInto(nodes: Nodes, isValid: IsValid, ghost rank: map<Id, nat>, id: Id, trace: seq<Id>)
    returns (valid: Result<bool>, trace': seq<Id>)
    requires Ranked(nodes, rank) && id in nodes
    ensures valid == Validate(nodes, isValid, rank, id).result
    ensures trace' == trace + Validate(nodes, isValid, rank, id).trace
    ensures !isValid(nodes[id]) ==> valid == Ok(false) && trace' == trace
    decreases rank[id]
  {
    var n := nodes[id];
    if !isValid(n) {
      return Ok(false), trace;
    }
    ghost var all := ValidateInputs(nodes, isValid, rank, id, |n.inputs|);
    assert Validate(nodes, isValid, rank, id) == Walk(all.result, [id] + all.trace);
    ghost var pushed := trace + [id];
    AppendAssoc(trace, [id], all.trace);
    trace' := trace + [id];
    var i := 0;
    while i < |n.inputs|
      invariant 0 <= i <= |n.inputs|
      invariant ValidateInputs(nodes, isValid, rank, id, i).result == Ok(true)
      invariant trace' == pushed + ValidateInputs(nodes, isValid, rank, id, i).trace
    {
      var j := n.inputs[i];
      InputsStep(nodes, isValid, rank, id, i);
      if j !in nodes {
        InputsStop(nodes, isValid, rank, id, i + 1, |n.inputs|);
        return Err(NodeNotFound), trace';
      }
      assert j in nodes[id].inputs;
      AppendAssoc(pushed, ValidateInputs(nodes, isValid, rank, id, i).trace, Validate(nodes, isValid, rank, j).trace);
      var r;
      r, trace' := ValidateInto(nodes, isValid, rank, j, trace');
      if r != Ok(true) {
        // the child's error is propagated as is, and a false child makes this walk false
        InputsStop(nodes, isValid, rank, id, i + 1, |n.inputs|);
        return r, trace';
      }
      i := i + 1;
    }
    valid := Ok(true);
  }

  lemma AppendAssoc(a: seq<Id>, b: seq<Id>, c: seq<Id>)
    ensures a + b + c == a + (b + c)
  {
  }

  /** One more input walked, after all earlier inputs walked to `Ok(true)`. */
  lemma InputsStep(nodes: Nodes, isValid: IsValid, rank: map<Id, nat>, parent: Id, i: nat)
    requires Ranked(nodes, rank) && parent in nodes && i < |nodes[parent].inputs|
    requires ValidateInputs(nodes, isValid, rank, parent, i).result == Ok(true)
    ensures var j := nodes[parent].inputs[i];
      var done := ValidateInputs(nodes, isValid, rank, parent, i);
      ValidateInputs(nodes, isValid, rank, parent, i + 1) ==
        if j !in nodes then Walk(Err(NodeNotFound), done.trace)
        else Walk(Validate(nodes, isValid, rank, j).result, done.trace + Validate(nodes, isValid, rank, j).trace)
  {
  }

  /** Once the walk over a prefix of the inputs has stopped, walking more of the
      inputs changes neither the outcome nor the trace: later siblings are not visited. */
  lemma {:induction false} InputsStop(nodes: Nodes, isValid: IsValid, rank: map<Id, nat>, parent: Id, k: nat, count: nat)
    requires Ranked(nodes, rank) && parent in nodes && k <= count <= |nodes[parent].inputs|
    requires ValidateInputs(nodes, isValid, rank, parent, k).result != Ok(true)
    ensures ValidateInputs(nodes, isValid, rank, parent, count) == ValidateInputs(nodes, isValid, rank, parent, k)
    decreases count
  {
    if count > k {
      InputsStop(nodes, isValid, rank, parent, k, count - 1);
    }
  }

  // ---------------------------------------------------------------------------
  // Reference definitions: a valid chain, and the nodes reachable from a node.

  /** The node passes its own check, and every input exists and has a valid chain. */
  ghost predicate ChainValid(nodes: Nodes, isValid: IsValid, rank: map<Id, nat>, id: Id)
    requires Ranked(nodes, rank) && id in nodes
    decreases rank[id]
  {
    && isValid(nodes[id])
    && forall j | j in nodes[id].inputs :: j in nodes && ChainValid(nodes, isValid, rank, j)
  }

  /** The node and every existing node reachable from it along inputs. */
  ghost function Reach(nodes: Nodes, rank: map<Id, nat>, id: Id): set<Id>
    requires Ranked(nodes, rank) && id in nodes
    decreases rank[id], 1
  {
    {id} + ReachInputs(nodes, rank, id, |nodes[id].inputs|)
  }

  ghost function ReachInputs(nodes: Nodes, rank: map<Id, nat>, parent: Id, count: nat): set<Id>
    requires Ranked(nodes, rank) && parent in nodes && count <= |nodes[parent].inputs|
    decreases rank[parent], 0, count
  {
    if count == 0 then {}
    else
      var j := nodes[parent].inputs[count - 1];
      assert j in nodes[parent].inputs;
      ReachInputs(nodes, rank, parent, count - 1) + (if j in nodes then Reach(nodes, rank, j) else {})
  }

  /** Node `k` exists and fails its own check. */
  ghost predicate FailsCheck(nodes: Nodes, isValid: IsValid, k: Id)
  {
    k in nodes && !isValid(nodes[k])
  }

  /** Node `k` exists and names an input that does not. */
  ghost predicate Dangling(nodes: Nodes, k: Id)
  {
    k in nodes && exists j | j in nodes[k].inputs :: j !in nodes
  }

  /** Every traced node exists and passed its own check, and each of its inputs
      is traced somewhere after it: the shape of a depth-first pre-order in
      which every node is followed by its whole subtree. */
  ghost predicate PreorderClosed(nodes: Nodes, isValid: IsValid, t: seq<Id>)
  {
    forall p | 0 <= p < |t| ::
      && t[p] in nodes
      && isValid(nodes[t[p]])
      && forall j | j in nodes[t[p]].inputs :: j in t[p + 1..]
  }

  // ---------------------------------------------------------------------------
  // Properties of the walk.

  /** The walk from `id` returns `Ok(true)` exactly when the node's whole chain is valid. */
  lemma {:induction false} ValidateTrueIff(nodes: Nodes, isValid: IsValid, rank: map<Id, nat>, id: Id)
    requires Ranked(nodes, rank) && id in nodes
    ensures Validate(nodes, isValid, rank, id).result == Ok(true) <==> ChainValid(nodes, isValid, rank, id)
    decreases rank[id], 1
  {
    var ins := nodes[id].inputs;
    if isValid(nodes[id]) {
      InputsTrueIff(nodes, isValid, rank, id, |ins|);
      assert (forall j | j in ins :: j in nodes && ChainValid(nodes, isValid, rank, j))
         <==> (forall i | 0 <= i < |ins| :: ins[i] in nodes && ChainValid(nodes, isValid, rank, ins[i]));
    }
  }

  lemma {:induction false} InputsTrueIff(nodes: Nodes, isValid: IsValid, rank: map<Id, nat>, parent: Id, count: nat)
    requires Ranked(nodes, rank) && parent in nodes && count <= |nodes[parent].inputs|
    ensures ValidateInputs(nodes, isValid, rank, parent, count).result == Ok(true)
        <==> forall i | 0 <= i < count ::
               nodes[parent].inputs[i] in nodes && ChainValid(nodes, isValid, rank, nodes[parent].inputs[i])
    decreases rank[parent], 0, count
  {
    if count > 0 {
      InputsTrueIff(nodes, isValid, rank, parent, count - 1);
      var j := nodes[parent].inputs[count - 1];
      assert j in nodes[parent].inputs;
      if j in nodes {
        ValidateTrueIff(nodes, isValid, rank, j);
      }
    }
  }

  lemma PreorderConcat(nodes: Nodes, isValid: IsValid, a: seq<Id>, b: seq<Id>)
    requires PreorderClosed(nodes, isValid, a) && PreorderClosed(nodes, isValid, b)
    ensures PreorderClosed(nodes, isValid, a + b)
  {
    var t := a + b;
    forall p | 0 <= p < |t|
      ensures t[p] in nodes && isValid(nodes[t[p]])
      ensures forall j | j in nodes[t[p]].inputs :: j in t[p + 1..]
    {
      if p < |a| {
        assert t[p] == a[p];
        assert t[p + 1..] == a[p + 1..] + b;
      } else {
        assert t[p] == b[p - |a|];
        assert t[p + 1..] == b[p - |a| + 1..];
      }
    }
  }

  lemma PreorderCons(nodes: Nodes, isValid: IsValid, id: Id, t: seq<Id>)
    requires id in nodes && isValid(nodes[id])
    requires forall j | j in nodes[id].inputs :: j in t
    requires PreorderClosed(nodes, isValid, t)
    ensures PreorderClosed(nodes, isValid, [id] + t)
  {
    var s := [id] + t;
    assert s[1..] == t;
    forall p | 1 <= p < |s|
      ensures s[p] in nodes && isValid(nodes[s[p]])
      ensures forall j | j in nodes[s[p]].inputs :: j in s[p + 1..]
    {
      assert s[p] == t[p - 1];
      assert s[p + 1..] == t[p..];
    }
  }

  /** A walk that returns `Ok(true)` traces the node first and then, after each
      traced node, all of that node's inputs. */
  lemma {:induction false} ValidTraceClosed(nodes: Nodes, isValid: IsValid, rank: map<Id, nat>, id: Id)
    requires Ranked(nodes, rank) && id in nodes
    ensures var w := Validate(nodes, isValid, rank, id);
      w.result == Ok(true) ==> |w.trace| > 0 && w.trace[0] == id && PreorderClosed(nodes, isValid, w.trace)
    decreases rank[id], 1
  {
    if isValid(nodes[id]) {
      var ins := nodes[id].inputs;
      InputsTraceClosed(nodes, isValid, rank, id, |ins|);
      var w := ValidateInputs(nodes, isValid, rank, id, |ins|);
      if w.result == Ok(true) {
        forall j | j in ins ensures j in w.trace {
          var i :| 0 <= i < |ins| && ins[i] == j;
        }
        PreorderCons(nodes, isValid, id, w.trace);
      }
    }
  }

  lemma {:induction false} InputsTraceClosed(nodes: Nodes, isValid: IsValid, rank: map<Id, nat>, parent: Id, count: nat)
    requires Ranked(nodes, rank) && parent in nodes && count <= |nodes[parent].inputs|
    ensures var w := ValidateInputs(nodes, isValid, rank, parent, count);
      w.result == Ok(true) ==>
        && PreorderClosed(nodes, isValid, w.trace)
        && forall i | 0 <= i < count :: nodes[parent].inputs[i] in w.trace
    decreases rank[parent], 0, count
  {
    if count > 0 {
      InputsTraceClosed(nodes, isValid, rank, parent, count - 1);
      var w := ValidateInputs(nodes, isValid, rank, parent, count - 1);
      var j := nodes[parent].inputs[count - 1];
      assert j in nodes[parent].inputs;
      if w.result == Ok(true) && j in nodes {
        ValidTraceClosed(nodes, isValid, rank, j);
        var c := Validate(nodes, isValid, rank, j);
        if c.result == Ok(true) {
          PreorderConcat(nodes, isValid, w.trace, c.trace);
          assert c.trace[0] == j;
        }
      }
    }
  }

  /** A walk that returns `Ok(true)` traces exactly the nodes reachable from `id`. */
  lemma {:induction false} ValidTraceReach(nodes: Nodes, isValid: IsValid, rank: map<Id, nat>, id: Id)
    requires Ranked(nodes, rank) && id in nodes
    ensures var w := Validate(nodes, isValid, rank, id);
      w.result == Ok(true) ==> forall k :: k in w.trace <==> k in Reach(nodes, rank, id)
    decreases rank[id], 1
  {
    if isValid(nodes[id]) {
      InputsTraceReach(nodes, isValid, rank, id, |nodes[id].inputs|);
    }
  }

  lemma {:induction false} InputsTraceReach(nodes: Nodes, isValid: IsValid, rank: map<Id, nat>, parent: Id, count: nat)
    requires Ranked(nodes, rank) && parent in nodes && count <= |nodes[parent].inputs|
    ensures var w := ValidateInputs(nodes, isValid, rank, parent, count);
      w.result == Ok(true) ==> forall k :: k in w.trace <==> k in ReachInputs(nodes, rank, parent, count)
    decreases rank[parent], 0, count
  {
    if count > 0 {
      InputsTraceReach(nodes, isValid, rank, parent, count - 1);
      var j := nodes[parent].inputs[count - 1];
      assert j in nodes[parent].inputs;
      if j in nodes {
        ValidTraceReach(nodes, isValid, rank, j);
      }
    }
  }

  /** What makes a walk fail: `Ok(false)` comes only from a reachable node that
      fails its own check, and `NodeNotFound` only from a reachable node with a
      dangling input. */
  lemma {:induction false} ValidateCause(nodes: Nodes, isValid: IsValid, rank: map<Id, nat>, id: Id)
    requires Ranked(nodes, rank) && id in nodes
    ensures var r := Validate(nodes, isValid, rank, id).result;
      && (r == Ok(false) ==> exists k :: k in Reach(nodes, rank, id) && FailsCheck(nodes, isValid, k))
      && (r.Err? ==> exists k :: k in Reach(nodes, rank, id) && Dangling(nodes, k))
    decreases rank[id], 1
  {
    if !isValid(nodes[id]) {
      assert id in Reach(nodes, rank, id) && FailsCheck(nodes, isValid, id);
    } else {
      InputsCause(nodes, isValid, rank, id, |nodes[id].inputs|);
      if Dangling(nodes, id) {
        assert id in Reach(nodes, rank, id);
      }
    }
  }

  /** The same over the first `count` inputs of `parent`; a missing input makes
      `parent` itself the dangling node. */
  lemma {:induction false} InputsCause(nodes: Nodes, isValid: IsValid, rank: map<Id, nat>, parent: Id, count: nat)
    requires Ranked(nodes, rank) && parent in nodes && count <= |nodes[parent].inputs|
    ensures var r := ValidateInputs(nodes, isValid, rank, parent, count).result;
      && (r == Ok(false) ==> exists k :: k in ReachInputs(nodes, rank, parent, count) && FailsCheck(nodes, isValid, k))
      && (r.Err? ==> Dangling(nodes, parent) || exists k :: k in ReachInputs(nodes, rank, parent, count) && Dangling(nodes, k))
    decreases rank[parent], 0, count
  {
    if count > 0 {
      var w := ValidateInputs(nodes, isValid, rank, parent, count - 1);
      var j := nodes[parent].inputs[count - 1];
      assert j in nodes[parent].inputs;
      if w.result != Ok(true) {
        InputsCause(nodes, isValid, rank, parent, count - 1);
      } else if j in nodes {
        ValidateCause(nodes, isValid, rank, j);
      }
    }
  }
}
